=== FILE: README.md ===
# List editing commands of the webf-run editor

This project models the list logic of the editor in `webf-run-editor/src/main.ts`.
The editor is built on ProseMirror. The model covers:

- the document schema (node types and their content rules);
- the two position tests `isListItemAtPos` and `selectedNodeType`;
- the Enter and Tab key handlers;
- `converToList` and `insertList`;
- the click handlers of the unordered-list and ordered-list buttons.

Each handler reads the current selection and asks the document for at most one replace.
The model makes each handler a pure function from the selection to a `Plan`:

- `NoOp`: nothing is dispatched;
- `Replace(from, to, node)`: a `replaceWith`;
- `ReplaceRange(from, to, node)`: a `replaceRangeWith`;
- `Throws(fault)`: the JavaScript error the handler raises on the way.

The three modules are:

- `Schema` (`schema.dfy`):
  - the node kinds and their type names;
  - the content rules (`Allowed`) and schema conformance of a whole tree (`Conforms`);
  - node size in ProseMirror's offset space, and text content;
  - the two constructors the handlers use: `NodeType.create`, which does not check content, and `schema.text`, which refuses the empty string.
- `Position` (`position.dfy`):
  - a resolved position as its ancestor chain, child indices and start offsets;
  - `node(d)`, including ProseMirror's rule that a negative depth counts back from the position's own depth;
  - `start`, `end`, `before` and `after`;
  - `ResolvedIn`: the consistency a resolution of an offset in a document guarantees;
  - lemmas showing that ancestor spans nest and that ancestors of a conforming document conform.
- `ListCommands` (`commands.dfy`):
  - the handlers, each with its throw paths;
  - the lemmas about them;
  - concrete documents that show each branch.

## Model

| member | source | states |
|---|---|---|
| Schema.NameInjective | webf-run-editor/src/main.ts:11-56 | the declared type names identify node types, so comparing `type.name` strings compares types (both directions) |
| Schema.Create | webf-run-editor/src/main.ts:12-56 | `NodeType.create` keeps the kind and children; the node satisfies the schema iff its children are allowed by its type's content rule and each satisfies the schema; its size is its content size plus two; its text is its children's text |
| Schema.TextOf | webf-run-editor/src/main.ts:162 | `schema.text(s)` yields a node iff `s` is non-empty; that node satisfies the schema, is a text node, reads as `s` and has size `|s|` |
| Position.NodeAtCountsBack | webf-run-editor/src/main.ts:150-165 | `node(-k)` and `node(depth - k)` read the same ancestor for `0 < k <= depth`, so lines 150 and 165 name the same grandparent; at depth one `node(depth - 2)` is the root while `node(-2)` is undefined |
| Position.AncestorNests | webf-run-editor/src/main.ts:137 | in a resolved position the ancestor at depth `d` starts one before its content and ends one after it; `before(d)..after(d)` lies within the content of the ancestor at `d-1` |
| Position.PosInsideAncestor | webf-run-editor/src/main.ts:176-181 | a resolved offset lies within the content of every ancestor, not only the innermost |
| Position.PositionInDocument | webf-run-editor/src/main.ts:243-246 | a resolved offset lies between 0 and the size of the root's content |
| Position.AncestorConforms | webf-run-editor/src/main.ts:12-56 | in a conforming document every ancestor on a resolved path conforms and is allowed by its parent's content rule |
| ListCommands.ParaOf | webf-run-editor/src/main.ts:208-211 | the conversion's paragraph is a conforming paragraph that reads as the given text and is two larger; it is empty for empty text, never holding an empty text node |
| ListCommands.TextParagraph | webf-run-editor/src/main.ts:160-163 | for non-empty text, the paragraph Tab builds around `schema.text` is the conversion's paragraph |
| ListCommands.EmptyItem | webf-run-editor/src/main.ts:134-135 | the new item is a conforming list item holding exactly one empty paragraph; it has no text and size 4 |
| ListCommands.IsListItemAtPos | webf-run-editor/src/main.ts:117-124 | true iff the parent or the grandparent of the position's node is a list item; an absent ancestor counts as false |
| ListCommands.ListItemAtPosNeedsDepth | webf-run-editor/src/main.ts:117-124 | in a document rooted at `doc`, the test holds only at depth two or more (both directions) |
| ListCommands.SelectedNodeType | webf-run-editor/src/main.ts:190-196 | the result is non-empty iff the type is paragraph, unordered list, ordered list or list item; it is then the type's name, which determines the type |
| ListCommands.EnterPlan | webf-run-editor/src/main.ts:127-143 | Enter does nothing iff `$from` is not in a list item; it throws iff `$from` is in one and `$to` is at depth 0; otherwise it replaces `before()..after()` of `$to`'s innermost block, exactly that block's size, with an item holding one empty paragraph |
| ListCommands.EnterReplacesInnermostBlock | webf-run-editor/src/main.ts:137 | the span Enter replaces surrounds the cursor and lies strictly inside the enclosing node, so the enclosing list item is never part of it |
| ListCommands.IndentedItem | webf-run-editor/src/main.ts:164-173 | Tab's new node is an item holding one nested container; the container holds the paragraph and then a one-item list around the current item; that list is unordered iff the grandparent is an unordered list, and ordered otherwise |
| ListCommands.TabIndent | webf-run-editor/src/main.ts:155-184 | once Tab fires: it throws a range error iff the grandparent has fewer than two children; it throws on an empty text node iff the last-but-one child's text is empty; it does nothing iff there is no block range; otherwise it replaces `start(-2)..before()` with the indented item |
| ListCommands.TabPlan | webf-run-editor/src/main.ts:145-188 | Tab throws when the position has no grandparent or the grandparent has no children; otherwise it indents iff the position is in a list item that is not the grandparent's first child, and does nothing if not |
| ListCommands.TabFirstItemIsNoOp | webf-run-editor/src/main.ts:150-154 | in a resolved position under the grandparent's first child, Tab does nothing |
| ListCommands.TabFiringHasPrevious | webf-run-editor/src/main.ts:157-159 | in a resolved position where Tab fires, the grandparent has at least two children, so the copy is in range |
| ListCommands.TabRangeWithinGrandparent | webf-run-editor/src/main.ts:176-181 | the range Tab replaces is non-empty and lies within the grandparent's content |
| ListCommands.ListItemViaGrandparent | webf-run-editor/src/main.ts:117-124 | in a conforming document, the list-item test holds through the grandparent alone only when the parent is a nested container |
| ListCommands.TabNodeConformsIff | webf-run-editor/src/main.ts:160-173 | in a conforming document where Tab fires, the item it builds conforms iff the position's parent is a list item |
| ListCommands.IndentedItemText | webf-run-editor/src/main.ts:164-173 | the indented item reads as its paragraph's text followed by the current item's text |
| ListCommands.IndentedItemConformsIff | webf-run-editor/src/main.ts:164-173 | from a conforming paragraph and a conforming current node, the indented item conforms iff the current node is a list item |
| ListCommands.TabPlanGuarded | webf-run-editor/src/main.ts:145-188 | Tab without its two crashes: it never throws; it indents iff Tab fires, a block range exists and the grandparent has two children; the range and node are those of the source's Tab, with an empty paragraph for empty text |
| ListCommands.TabGuardedAgrees | webf-run-editor/src/main.ts:145-188 | wherever the source's Tab does not throw, the guarded Tab plans exactly the same |
| ListCommands.TabGuardedFires | webf-run-editor/src/main.ts:150-154 | in a resolved position the guarded Tab indents iff the source's condition holds and a block range exists |
| ListCommands.TabThrowsOnEmptyPrevious | webf-run-editor/src/main.ts:157-162 | for a conforming list of an empty item and an item "b", Tab at the end of "b" throws on the empty text node; the guarded Tab indents under an empty paragraph |
| ListCommands.TabThrowsAtTopLevel | webf-run-editor/src/main.ts:150-152 | Tab in a top-level paragraph reads a missing grandparent and throws; the guarded Tab does nothing |
| ListCommands.TabIndentsSecondItem | webf-run-editor/src/main.ts:155-181 | Tab on the second of two items replaces offsets 1..7 with one item; that item's container holds the first item's text and the second item in an unordered list |
| ListCommands.TabCopiesLastButOne | webf-run-editor/src/main.ts:157-159 | in the middle of three items, Tab copies the middle item's own text, not that of the item before the cursor |
| ListCommands.TabDropsEarlierItems | webf-run-editor/src/main.ts:176-181 | on the last of three items "a", "b", "c", Tab replaces offsets 1..12 with an item reading "bc", so the first item (offsets 1..6) is removed and its text appears nowhere; nesting under the previous item replaces 6..16 with the same item |
| ListCommands.TabNestUnderPrevious | webf-run-editor/src/main.ts:145-188 | Tab with the current item nested under the item just before it: it never throws; it fires iff Tab's condition holds, the position's parent is a list item, a block range exists and the index is in range; it replaces `before..after` of the previous sibling and the current item with the indented item built from the previous sibling's text |
| ListCommands.TabNestFires | webf-run-editor/src/main.ts:150-154 | in a resolved position the nesting Tab fires iff the source's condition holds, the position's parent is a list item and a block range exists |
| ListCommands.TabNestConforms | webf-run-editor/src/main.ts:164-173 | in a conforming document, whenever the nesting Tab fires, the item it builds satisfies the schema |
| ListCommands.TabBreaksSchemaInNestedContainer | webf-run-editor/src/main.ts:117-124 | in the conforming document ul(li(p("x"), nested_list(p("y")))) with the cursor at the end of "y", Tab fires through the grandparent list item and replaces offsets 2..6 with an item whose ordered list holds the nested container, which does not conform; the nesting Tab does nothing there |
| ListCommands.TabNestSpan | webf-run-editor/src/main.ts:176-181 | in a resolved position where Tab fires, the nesting Tab's span is exactly the previous sibling followed by the current item, every earlier sibling lies before it, and the new item reads as those two items' text |
| ListCommands.ListNamed | webf-run-editor/src/main.ts:220-223 | the conversion's list is unordered iff the name is "unordered_list", ordered otherwise, and holds exactly the given item |
| ListCommands.Wrapped | webf-run-editor/src/main.ts:215-223 | the wrap branch builds a one-item list around one paragraph; it conforms, reads as the block's text, and is not a paragraph |
| ListCommands.ConvertToList | webf-run-editor/src/main.ts:198-234 | with no block range nothing happens; at depth 0 the conversion throws; otherwise it replaces up to the cursor with a conforming node carrying the block's text, from `pos - nodeSize ± 1` (minus inside a list item); the node is a bare paragraph iff the block is in an item of a list of the requested type |
| ListCommands.ConvertAnchor | webf-run-editor/src/main.ts:212-228 | the conversion's range starts at the block's `before()` minus the cursor's distance from the block's end, two further back inside a list item; it starts exactly at `before()` iff the cursor is at the end of a block outside any list item |
| ListCommands.FirstBlockAnchorNegative | webf-run-editor/src/main.ts:224-225 | in a resolved position in the document's first top-level block, the conversion asks for a replace, and its start is negative iff the cursor is before the block's end |
| ListCommands.ConvertAnchorBeforeDocument | webf-run-editor/src/main.ts:224-225 | at the start of a lone paragraph "ab", the conversion asks for a replace starting at offset -2 |
| ListCommands.ToggleRoundTrip | webf-run-editor/src/main.ts:204-213 | converting the paragraph of a list that the wrap branch built, with the same list type, gives back a bare paragraph with the same text |
| ListCommands.ConvertSecondParagraph | webf-run-editor/src/main.ts:224-225 | at the end of the second of two paragraphs, the conversion replaces from that paragraph's boundary to the cursor, and the first paragraph lies wholly before the range; this is the only cursor position in the paragraph for which that holds (see ConvertAnchor) |
| ListCommands.ConvertMidBlockReachesPrevious | webf-run-editor/src/main.ts:224-225 | with the cursor at the start of the second paragraph "bc" (offset 4, two characters before its end), the conversion's range starts at offset 1, inside the first paragraph (offsets 0..3) |
| ListCommands.InsertList | webf-run-editor/src/main.ts:236-249 | insertion replaces `$from.pos..$to.pos` with a conforming list of one empty item, unordered iff the name is "unordered"; it has no text and size 6 |
| ListCommands.CurrentNodeType | webf-run-editor/src/main.ts:262-265 | the buttons' classification is absent (a type error) iff the position is at depth 0; inside a list item it is the grandparent's type name; otherwise it is the selected-type name of the innermost node |
| ListCommands.ButtonPlan | webf-run-editor/src/main.ts:253-305 | with no block range a button inserts a list of its own kind over the selection; at depth 0 it throws; otherwise it converts to its own list type iff the classified type is a paragraph or a list, and does nothing if not |
| ListCommands.ButtonListKindConsistent | webf-run-editor/src/main.ts:253-305 | the list a button inserts and the list it converts to are of the same kind, despite the "unordered" / "unordered_list" naming split |
| ListCommands.ButtonConvertsUnlessNestedContainer | webf-run-editor/src/main.ts:262-274 | in a conforming document with the cursor in a paragraph, a button fails to convert iff the paragraph's item sits in a nested container rather than in a list |

Some behaviours of the code are worth stating outright:

- **Enter** replaces `$to.before()..$to.after()`: the whole innermost block at `$to`, text before and after the cursor alike, not the enclosing list item (`EnterReplacesInnermostBlock`).
- **Tab, what it copies.** Tab copies the text of the grandparent's last-but-one child. That is the item before the cursor only when the cursor is in the last item (`TabCopiesLastButOne`).
- **Tab, what it replaces.** Tab replaces `start(-2)..before()`: from the grandparent's content start to just before the cursor's block. That range covers every earlier sibling of the current item, not only the previous one (`TabDropsEarlierItems`, listed under Findings).
- **Conversion anchor.** The conversion's range ends at the cursor and starts at `pos - nodeSize ± 1`. It starts at the block's boundary only when the cursor is at the end of a block outside any list item. Elsewhere it starts earlier, inside what precedes the block, or before offset 0 when nothing precedes it: in the document's first top-level block the start is negative at every cursor position except the block's end (`ConvertAnchor`, `ConvertMidBlockReachesPrevious`, `FirstBlockAnchorNegative`, `ConvertAnchorBeforeDocument`).
- **Tab, schema.** When the position is in a list item only through its grandparent (its parent is a nested container), Tab still fires and wraps the nested container in a list, which the schema forbids (`TabNodeConformsIff`, `TabBreaksSchemaInNestedContainer`). `TabPlanGuarded` keeps this violation; `TabNestUnderPrevious` does nothing there and always builds a conforming item (`TabNestConforms`).
- **Schema.** The `nested_list` content rule admits `paragraph`, `unordered_list`, `ordered_list` and `list_item` (line 22).
- **Errors.** Tab throws in the cases listed under Findings. Enter throws when `$to` is at depth 0, because the root has no position before it. The buttons and the conversion throw at depth 0. Where the conversion's start is negative, the library refuses the replace at line 232 with a range error, so the click handler throws and nothing is dispatched; the model records the replace that is asked for.

## Left out

- DOM event wiring is not modelled: key and click listeners, `preventDefault`, `view.focus`, the `console.log` calls and the missing-button checks. Each handler is its decision only.
- `view.dispatch` is not modelled, nor the library's replace (fitting, schema checking, position mapping). A plan says which replace is asked for, not the document that results.
- `blockRange` is an input: `Selection.hasRange` says whether it exists. Its own computation belongs to the library. In the handlers, `range.$from` is `$from` itself.
- `resolve` is not modelled. `ResolvedIn` states only what any resolution satisfies (the path, the start offsets, the offset within the innermost node), not which node resolution descends to.
- Node identity in Tab's `child(0) !== node(depth - 1)` is modelled as the current item's index being non-zero. The same node object placed twice in one document is not modelled.
- Marks are not modelled, and neither are the key bindings for them, undo/redo history, rendering (`toDOM`/`parseDOM`) or the ordered list's `order` attribute.
- `prosemirror/src/main.ts` is not part of this model.
- Text lengths count characters. The library counts UTF-16 code units, which differs only for characters outside the Basic Multilingual Plane.
- `EnterPlan` is the container's Enter listener alone, which replaces the whole block at `$to`. In the running editor the keymap's own Enter (line 103) handles the key first on the inner editor element and splits the block; the container's listener then sees the split state, and the block it replaces is the new one holding the text after the cursor. That interplay of the two handlers is not modelled.

## Findings

| source | as written | input that shows it | evidently intended | confidence | as-written member | corrected member |
|---|---|---|---|---|---|---|
| webf-run-editor/src/main.ts:157-162 | Tab builds `schema.text` from the text of the grandparent's last-but-one child, and that call throws a RangeError on an empty string | an unordered list of an empty item and an item "b", with the cursor at the end of "b", then Tab | indent under an empty paragraph, as the list conversion does for empty text at lines 209-211 | not executed | ListCommands.TabThrowsOnEmptyPrevious | ListCommands.TabPlanGuarded |
| webf-run-editor/src/main.ts:150-152 | Tab reads `child(0)` of `$from.node(-2)` before checking that the position is in a list item; at depth one or less that node is undefined and the read throws a TypeError | a document holding one paragraph "a", with the cursor after "a", then Tab | do nothing, as for any other position outside a list item | not executed | ListCommands.TabThrowsAtTopLevel | ListCommands.TabPlanGuarded |
| webf-run-editor/src/main.ts:176-181 | Tab replaces from `$from.start(-2)`, the grandparent's content start, so every sibling before the current item falls inside the range; only the last-but-one child's text survives in the new node | an unordered list of items "a", "b", "c", with the cursor at the end of "c", then Tab: offsets 1..12 become one item reading "bc" | replace only the previous sibling and the current item, nesting the current item under the previous one | not executed | ListCommands.TabDropsEarlierItems | ListCommands.TabNestUnderPrevious |
| webf-run-editor/src/main.ts:149-173 | Tab fires when the grandparent alone is a list item, then wraps the position's parent, a nested container, in a list, which the schema does not allow | a list item holding a paragraph "x" and a nested container around a paragraph "y", with the cursor at the end of "y", then Tab: offsets 2..6 become an item whose ordered list holds the nested container | indent only when the position's parent is a list item, so the built item satisfies the schema | not executed | ListCommands.TabBreaksSchemaInNestedContainer | ListCommands.TabNestUnderPrevious |

=== FILE: commands.dfy ===
/**
  The list commands of the editor: the Enter and Tab key handlers, the two
  list buttons, and the helpers they share. Each looks at the current
  selection and decides what single replace to ask of the document, if any.
  Where the source would throw, the plan says which error it is.
*/
module ListCommands {
  import opened Schema
  import opened Position

  /** The errors the handlers can raise on their way to a replace. */
  datatype Fault =
    | UndefinedAncestor    // a property read on an absent `$pos.node(d)` (TypeError)
    | ChildOutOfRange      // `Fragment.child` with an index outside the content (RangeError)
    | NoPositionBeforeTop  // `before()`/`after()` asked of the root (RangeError)
    | EmptyText            // `schema.text("")` (RangeError)

  /** What a handler dispatches: nothing, one replace of `[from, to]` by `node`, or an error. */
  datatype Plan =
    | NoOp
    | Replace(from: int, to: int, node: Node)       // `tr.replaceWith(from, to, node)`
    | ReplaceRange(from: int, to: int, node: Node)  // `tr.replaceRangeWith(from, to, node)`
    | Throws(fault: Fault)

  /** The editor selection: its two resolved ends and whether `$from.blockRange($to)` exists. */
  datatype Selection = Selection(from: ResolvedPos, to: ResolvedPos, hasRange: bool)

  /** `node && node.type.name === name` for a possibly absent ancestor. */
  predicate HasTypeName(n: Option<Node>, name: string)
  {
    n.Some? && Name(n.value.kind) == name
  }

  /** The paragraph the list conversion builds: empty text gives an empty paragraph, never an empty text node. */
  function ParaOf(t: string): (r: Node)
    ensures r.kind == Paragraph && Conforms(r)
    ensures TextContent(r) == t && NodeSize(r) == |t| + 2
    ensures t == "" ==> r.children == []
    ensures t != "" ==> r.children == [Node(Text, [], t)]
  {
    match TextOf(t)
    case None => Create(Paragraph, [])
    case Some(tn) => SingletonContent(tn); Create(Paragraph, [tn])
  }

  /** For non-empty text, the guarded paragraph is the paragraph around the text node. */
  lemma TextParagraph(t: string)
    requires t != ""
    ensures Create(Paragraph, [TextOf(t).value]) == ParaOf(t)
  {
  }

  /** A list item holding one empty paragraph. */
  function EmptyItem(): (r: Node)
    ensures r.kind == ListItem && |r.children| == 1 && r.children[0].kind == Paragraph && r.children[0].children == []
    ensures Conforms(r) && TextContent(r) == "" && NodeSize(r) == 4
  {
    Create(ListItem, [Create(Paragraph, [])])
  }

  /** True when the ancestor one or two levels above the position's parent is a list item. */
  function IsListItemAtPos(rp: ResolvedPos): (r: bool)
    ensures r <==> ((rp.depth >= 1 && rp.nodes[rp.depth - 1].kind == ListItem)
                    || (rp.depth >= 2 && rp.nodes[rp.depth - 2].kind == ListItem))
  {
    HasTypeName(NodeAt(rp, rp.depth - 1), "list_item") || HasTypeName(NodeAt(rp, rp.depth - 2), "list_item")
  }

  /** Within a document whose root is a `doc` node, only positions two or more levels deep are in a list item. */
  lemma ListItemAtPosNeedsDepth(rp: ResolvedPos, doc: Node)
    requires ResolvedIn(rp, doc) && doc.kind == Doc
    ensures IsListItemAtPos(rp) <==>
              rp.depth >= 2 && (rp.nodes[rp.depth - 1].kind == ListItem || rp.nodes[rp.depth - 2].kind == ListItem)
  {
  }

  /** The name of a block type the list buttons act on, or "" for any other type. */
  function SelectedNodeType(k: Kind): (r: string)
    ensures r != "" <==> k == Paragraph || k == UnorderedList || k == OrderedList || k == ListItem
    ensures r != "" ==> r == Name(k)
    ensures forall k' :: r == Name(k') ==> k' == k
  {
    if Name(k) == "paragraph" then "paragraph"
    else if Name(k) == "unordered_list" then "unordered_list"
    else if Name(k) == "ordered_list" then "ordered_list"
    else if Name(k) == "list_item" then "list_item"
    else ""
  }

  // ---------------------------------------------------------------- Enter

  /** Enter: inside a list item, replace the innermost block around `$to` by a list item holding an empty paragraph. */
  function EnterPlan(sel: Selection): (r: Plan)
    ensures r.NoOp? <==> !IsListItemAtPos(sel.from)
    ensures r.Throws? <==> IsListItemAtPos(sel.from) && sel.to.depth == 0
    ensures r.Throws? ==> r.fault == NoPositionBeforeTop
    ensures !r.ReplaceRange?
    ensures r.Replace? ==> sel.to.depth >= 1 && r.from == Before(sel.to, sel.to.depth) && r.to == After(sel.to, sel.to.depth)
    ensures r.Replace? ==> r.node == EmptyItem() && r.to - r.from == NodeSize(sel.to.nodes[sel.to.depth])
  {
    if !IsListItemAtPos(sel.from) then NoOp
    else if sel.to.depth == 0 then Throws(NoPositionBeforeTop)
    else Replace(Before(sel.to, sel.to.depth), After(sel.to, sel.to.depth), Create(ListItem, [Create(Paragraph, [])]))
  }

  /**
    Enter replaces only the innermost block around `$to`: the replaced span
    surrounds the cursor and lies strictly inside the enclosing node's content,
    so the enclosing list item itself is never part of it.
  */
  lemma EnterReplacesInnermostBlock(sel: Selection, doc: Node)
    requires ResolvedIn(sel.to, doc)
    requires EnterPlan(sel).Replace?
    ensures var r := EnterPlan(sel);
      && r.from < sel.to.pos < r.to
      && Start(sel.to, sel.to.depth - 1) <= r.from && r.to <= End(sel.to, sel.to.depth - 1)
      && (sel.to.depth >= 2 ==> Before(sel.to, sel.to.depth - 1) < r.from && r.to < After(sel.to, sel.to.depth - 1))
  {
    var d := sel.to.depth;
    AncestorNests(sel.to, doc, d);
    if d >= 2 {
      AncestorNests(sel.to, doc, d - 1);
    }
  }

  // ---------------------------------------------------------------- Tab

  /** The node Tab builds: the given paragraph and a list of the grandparent's kind around the current item, in a nested container inside a new item. */
  function IndentedItem(para: Node, grand: Node, current: Node): (r: Node)
    ensures r.kind == ListItem && |r.children| == 1
    ensures r.children[0].kind == NestedList && |r.children[0].children| == 2 && r.children[0].children[0] == para
    ensures var l := r.children[0].children[1];
      && (l.kind == UnorderedList <==> grand.kind == UnorderedList)
      && (l.kind == UnorderedList || l.kind == OrderedList)
      && l.children == [current]
  {
    var list := if Name(grand.kind) == "unordered_list" then Create(UnorderedList, [current]) else Create(OrderedList, [current]);
    Create(ListItem, [Create(NestedList, [para, list])])
  }

  /** Tab fires when the position is in a list item and the current item is not the first child of the grandparent. */
  predicate TabFires(rp: ResolvedPos)
  {
    rp.depth >= 2 && rp.indices[rp.depth - 2] != 0 && IsListItemAtPos(rp)
  }

  /** The text Tab copies: that of the grandparent's last-but-one child. */
  function CopiedText(rp: ResolvedPos): string
    requires rp.depth >= 2 && |rp.nodes[rp.depth - 2].children| >= 2
  {
    var grand := rp.nodes[rp.depth - 2];
    TextContent(grand.children[|grand.children| - 2])
  }

  /**
    The Tab handler once its condition holds: copy the grandparent's
    last-but-one child's text into a text node (refused when empty), build the
    indented item, and replace from the grandparent's content start to just
    before the cursor's block when a block range exists.
  */
  function TabIndent(sel: Selection): (r: Plan)
    requires TabFires(sel.from)
    ensures !r.Replace?
    ensures r == Throws(ChildOutOfRange) <==> |sel.from.nodes[sel.from.depth - 2].children| < 2
    ensures r == Throws(EmptyText) <==> |sel.from.nodes[sel.from.depth - 2].children| >= 2 && CopiedText(sel.from) == ""
    ensures r.NoOp? <==> |sel.from.nodes[sel.from.depth - 2].children| >= 2 && CopiedText(sel.from) != "" && !sel.hasRange
    ensures r.ReplaceRange? ==>
      var rp := sel.from;
      && |rp.nodes[rp.depth - 2].children| >= 2 && sel.hasRange
      && r.from == Start(rp, rp.depth - 2) && r.to == Before(rp, rp.depth)
      && r.node == IndentedItem(ParaOf(CopiedText(rp)), rp.nodes[rp.depth - 2], rp.nodes[rp.depth - 1])
  {
    var rp := sel.from;
    var grand := rp.nodes[rp.depth - 2];
    if |grand.children| < 2 then Throws(ChildOutOfRange)
    else
      var text := CopiedText(rp);
      match TextOf(text)
      case None => Throws(EmptyText)
      case Some(t) =>
        var para := Create(Paragraph, [t]);
        TextParagraph(text);
        var item := IndentedItem(para, grand, rp.nodes[rp.depth - 1]);
        if sel.hasRange then
          var from, to := Start(rp, rp.depth - 2), Before(rp, rp.depth);
          ReplaceRange(from, to, item)
        else NoOp
  }

  /**
    Tab (indent): throws when the position has no grandparent (fewer than two
    levels deep) or the grandparent has no children; indents when the position
    is in a list item that is not the grandparent's first child; otherwise does
    nothing.
  */
  function TabPlan(sel: Selection): (r: Plan)
    ensures sel.from.depth < 2 ==> r == Throws(UndefinedAncestor)
    ensures sel.from.depth >= 2 && |sel.from.nodes[sel.from.depth - 2].children| == 0 ==> r == Throws(ChildOutOfRange)
    ensures sel.from.depth >= 2 && |sel.from.nodes[sel.from.depth - 2].children| > 0 ==>
              r == if TabFires(sel.from) then TabIndent(sel) else NoOp
  {
    var rp := sel.from;
    match NodeAt(rp, -2)
    case None => Throws(UndefinedAncestor)
    case Some(grand) =>
      if |grand.children| == 0 then Throws(ChildOutOfRange)
      else if rp.indices[rp.depth - 2] != 0 && IsListItemAtPos(rp) then TabIndent(sel)
      else NoOp
  }

  /** Indenting the first item of a list changes nothing. */
  lemma TabFirstItemIsNoOp(sel: Selection, doc: Node)
    requires ResolvedIn(sel.from, doc)
    requires sel.from.depth >= 2 && sel.from.indices[sel.from.depth - 2] == 0
    ensures TabPlan(sel) == NoOp
  {
    assert StepValid(sel.from, sel.from.depth - 2);
  }

  /** In a resolved position where Tab fires, the grandparent has a child before the current one, so the copy never reads outside it. */
  lemma TabFiringHasPrevious(rp: ResolvedPos, doc: Node)
    requires ResolvedIn(rp, doc) && TabFires(rp)
    ensures |rp.nodes[rp.depth - 2].children| >= 2
  {
    assert StepValid(rp, rp.depth - 2);
  }

  /**
    The range Tab replaces, from the grandparent's content start to just before
    the cursor's block, is non-empty and lies within the grandparent's content.
  */
  lemma TabRangeWithinGrandparent(rp: ResolvedPos, doc: Node)
    requires ResolvedIn(rp, doc) && TabFires(rp)
    ensures Start(rp, rp.depth - 2) < Before(rp, rp.depth) < End(rp, rp.depth - 2)
  {
    AncestorNests(rp, doc, rp.depth);
    AncestorNests(rp, doc, rp.depth - 1);
  }

  /**
    In a document that satisfies the schema, a position is in a list item
    through the grandparent alone only when its parent is a nested container.
  */
  lemma ListItemViaGrandparent(rp: ResolvedPos, doc: Node)
    requires ResolvedIn(rp, doc) && Conforms(doc)
    requires IsListItemAtPos(rp) && rp.nodes[rp.depth - 1].kind != ListItem
    ensures rp.depth >= 2 && rp.nodes[rp.depth - 2].kind == ListItem && rp.nodes[rp.depth - 1].kind == NestedList
  {
    AncestorConforms(rp, doc, rp.depth - 1);
    AncestorConforms(rp, doc, rp.depth);
    assert StepValid(rp, rp.depth - 1);
  }

  /**
    In a document that satisfies the schema, the item Tab builds (with a
    non-empty copied text) satisfies the schema exactly when the position was
    in a list item through its parent; through the grandparent alone the new
    list wraps a nested container, which a list may not hold.
  */
  lemma TabNodeConformsIff(rp: ResolvedPos, doc: Node)
    requires ResolvedIn(rp, doc) && Conforms(doc) && TabFires(rp)
    ensures |rp.nodes[rp.depth - 2].children| >= 2
    ensures (Conforms(IndentedItem(ParaOf(CopiedText(rp)), rp.nodes[rp.depth - 2], rp.nodes[rp.depth - 1]))
             <==> rp.nodes[rp.depth - 1].kind == ListItem)
  {
    TabFiringHasPrevious(rp, doc);
    var current := rp.nodes[rp.depth - 1];
    AncestorConforms(rp, doc, rp.depth - 1);
    IndentedItemConformsIff(ParaOf(CopiedText(rp)), rp.nodes[rp.depth - 2], current);
  }

  /** The indented item satisfies the schema exactly when the item it wraps is a list item (given its parts do). */
  lemma IndentedItemConformsIff(para: Node, grand: Node, current: Node)
    requires para.kind == Paragraph && Conforms(para) && Conforms(current)
    ensures Conforms(IndentedItem(para, grand, current)) <==> current.kind == ListItem
  {
    var item := IndentedItem(para, grand, current);
    var nested := item.children[0];
    var list := nested.children[1];
    assert list == Create(list.kind, [current]);
    assert nested == Create(NestedList, [para, list]);
    assert item == Create(ListItem, [nested]);
  }

  /**
    Tab with its two crashes removed: a position with no grandparent does
    nothing, and an empty copied text gives an empty paragraph (the guard the
    list conversion uses) instead of an empty text node.
  */
  function TabPlanGuarded(sel: Selection): (r: Plan)
    ensures !r.Throws? && !r.Replace?
    ensures r.ReplaceRange? <==>
              TabFires(sel.from) && sel.hasRange && |sel.from.nodes[sel.from.depth - 2].children| >= 2
    ensures r.ReplaceRange? ==>
      var rp := sel.from;
      && r.from == Start(rp, rp.depth - 2) && r.to == Before(rp, rp.depth)
      && r.node == IndentedItem(ParaOf(CopiedText(rp)), rp.nodes[rp.depth - 2], rp.nodes[rp.depth - 1])
  {
    var rp := sel.from;
    match NodeAt(rp, -2)
    case None => NoOp
    case Some(grand) =>
      if TabFires(rp) && |grand.children| >= 2 && sel.hasRange then
        ReplaceRange(Start(rp, rp.depth - 2), Before(rp, rp.depth), IndentedItem(ParaOf(CopiedText(rp)), grand, rp.nodes[rp.depth - 1]))
      else NoOp
  }

  /** Wherever the source's Tab does not throw, the guarded Tab plans the same replace. */
  lemma TabGuardedAgrees(sel: Selection)
    requires !TabPlan(sel).Throws?
    ensures TabPlanGuarded(sel) == TabPlan(sel)
  {
    var rp := sel.from;
    assert rp.depth >= 2 && |rp.nodes[rp.depth - 2].children| > 0;
    if TabFires(rp) {
      var r := TabIndent(sel);
      assert |rp.nodes[rp.depth - 2].children| >= 2 && CopiedText(rp) != "";
    }
  }

  /** In a resolved position the guarded Tab fires exactly when the source's condition holds and a block range exists. */
  lemma TabGuardedFires(sel: Selection, doc: Node)
    requires ResolvedIn(sel.from, doc)
    ensures TabPlanGuarded(sel).ReplaceRange? <==> TabFires(sel.from) && sel.hasRange
  {
    if TabFires(sel.from) {
      TabFiringHasPrevious(sel.from, doc);
    }
  }

  /** The indented item reads as the paragraph's text followed by the current item's text. */
  lemma IndentedItemText(t: string, grand: Node, current: Node)
    ensures TextContent(IndentedItem(ParaOf(t), grand, current)) == t + TextContent(current)
  {
    var item := IndentedItem(ParaOf(t), grand, current);
    var nested := item.children[0];
    var list := nested.children[1];
    SingletonContent(current);
    assert TextContent(list) == TextContent(current);
    assert nested.children[..1] == [ParaOf(t)];
    SingletonContent(ParaOf(t));
    assert TextContent(nested) == t + TextContent(current);
    SingletonContent(nested);
  }

  /**
    Tab nesting the current item under the item immediately before it: the
    previous sibling and the current item are replaced by one item whose
    nested container holds the previous item's text and the current item in a
    list of the grandparent's kind. Positions where the source would crash do
    nothing, empty text gives an empty paragraph, and a position whose parent
    is not a list item (one reached through a nested container) does nothing,
    since wrapping that parent in a list breaks the schema.
  */
  function TabNestUnderPrevious(sel: Selection): (r: Plan)
    ensures !r.Throws? && !r.Replace?
    ensures r.ReplaceRange? <==>
              && TabFires(sel.from) && sel.hasRange && sel.from.nodes[sel.from.depth - 1].kind == ListItem
              && sel.from.indices[sel.from.depth - 2] < |sel.from.nodes[sel.from.depth - 2].children|
    ensures r.ReplaceRange? ==>
      var rp := sel.from;
      var prev := rp.nodes[rp.depth - 2].children[rp.indices[rp.depth - 2] - 1];
      && r.from == Before(rp, rp.depth - 1) - NodeSize(prev) && r.to == After(rp, rp.depth - 1)
      && r.node == IndentedItem(ParaOf(TextContent(prev)), rp.nodes[rp.depth - 2], rp.nodes[rp.depth - 1])
  {
    var rp := sel.from;
    match NodeAt(rp, -2)
    case None => NoOp
    case Some(grand) =>
      if TabFires(rp) && rp.nodes[rp.depth - 1].kind == ListItem && rp.indices[rp.depth - 2] < |grand.children| && sel.hasRange then
        var prev := grand.children[rp.indices[rp.depth - 2] - 1];
        var item := IndentedItem(ParaOf(TextContent(prev)), grand, rp.nodes[rp.depth - 1]);
        ReplaceRange(Before(rp, rp.depth - 1) - NodeSize(prev), After(rp, rp.depth - 1), item)
      else NoOp
  }

  /** In a resolved position the nesting Tab fires exactly when the source's condition holds, the parent is a list item and a block range exists. */
  lemma TabNestFires(sel: Selection, doc: Node)
    requires ResolvedIn(sel.from, doc)
    ensures TabNestUnderPrevious(sel).ReplaceRange? <==>
              TabFires(sel.from) && sel.hasRange && sel.from.nodes[sel.from.depth - 1].kind == ListItem
  {
    if TabFires(sel.from) {
      assert StepValid(sel.from, sel.from.depth - 2);
    }
  }

  /**
    The span the nesting Tab replaces is exactly the previous sibling followed
    by the current item: every earlier sibling lies wholly before it, and the
    new item reads as those two items' text.
  */
  lemma TabNestSpan(rp: ResolvedPos, doc: Node)
    requires ResolvedIn(rp, doc) && TabFires(rp)
    ensures var grand := rp.nodes[rp.depth - 2];
      var i := rp.indices[rp.depth - 2];
      && i < |grand.children|
      && Before(rp, rp.depth - 1) - NodeSize(grand.children[i - 1]) == Start(rp, rp.depth - 2) + ContentSize(grand.children[..i - 1])
      && After(rp, rp.depth - 1) == Start(rp, rp.depth - 2) + ContentSize(grand.children[..i + 1])
      && TextContent(IndentedItem(ParaOf(TextContent(grand.children[i - 1])), grand, rp.nodes[rp.depth - 1]))
           == TextContent(grand.children[i - 1]) + TextContent(grand.children[i])
  {
    var grand := rp.nodes[rp.depth - 2];
    var i := rp.indices[rp.depth - 2];
    assert StepValid(rp, rp.depth - 2);
    assert grand.children[..i][..i - 1] == grand.children[..i - 1];
    assert grand.children[..i + 1][..i] == grand.children[..i];
    IndentedItemText(TextContent(grand.children[i - 1]), grand, rp.nodes[rp.depth - 1]);
  }

  /** In a conforming document, the item the nesting Tab builds conforms. */
  lemma TabNestConforms(rp: ResolvedPos, doc: Node)
    requires ResolvedIn(rp, doc) && Conforms(doc) && TabFires(rp) && rp.nodes[rp.depth - 1].kind == ListItem
    ensures var grand := rp.nodes[rp.depth - 2];
      var i := rp.indices[rp.depth - 2];
      && 0 < i < |grand.children|
      && Conforms(IndentedItem(ParaOf(TextContent(grand.children[i - 1])), grand, rp.nodes[rp.depth - 1]))
  {
    var grand := rp.nodes[rp.depth - 2];
    assert StepValid(rp, rp.depth - 2);
    AncestorConforms(rp, doc, rp.depth - 1);
    IndentedItemConformsIff(ParaOf(TextContent(grand.children[rp.indices[rp.depth - 2] - 1])), grand, rp.nodes[rp.depth - 1]);
  }

  /** A list item holding one paragraph with text `t`. */
  function ItemOf(t: string): (r: Node)
    ensures r.kind == ListItem && r.children == [ParaOf(t)]
    ensures Conforms(r) && TextContent(r) == t && NodeSize(r) == |t| + 4
  {
    SingletonContent(ParaOf(t));
    Create(ListItem, [ParaOf(t)])
  }

  /** The position at the end of the second item's text, in a document holding one unordered list of two items. */
  function EndOfSecondItem(a: string, b: string): (rp: ResolvedPos)
  {
    var list := Create(UnorderedList, [ItemOf(a), ItemOf(b)]);
    ResolvedPosRecord(|a| + |b| + 7, 3, [Create(Doc, [list]), list, ItemOf(b), ParaOf(b)], [0, 1, 0], [0, |a| + 5, |a| + 6])
  }

  lemma EndOfSecondItemResolved(a: string, b: string)
    ensures var rp := EndOfSecondItem(a, b);
      ResolvedIn(rp, rp.nodes[0]) && Conforms(rp.nodes[0])
  {
    var rp := EndOfSecondItem(a, b);
    var list := rp.nodes[1];
    assert rp.nodes[0].children[..0] == [] && list.children[..1] == [ItemOf(a)] && ItemOf(b).children[..0] == [];
    SingletonContent(ItemOf(a));
    assert StepValid(rp, 0);
    assert StepValid(rp, 1);
    assert StepValid(rp, 2);
    assert Conforms(list);
  }

  /**
    With an empty first item, Tab on the second item throws when it builds the
    empty text node; the guarded Tab indents it under an empty paragraph.
  */
  lemma TabThrowsOnEmptyPrevious()
    ensures var rp := EndOfSecondItem("", "b");
      && ResolvedIn(rp, rp.nodes[0]) && Conforms(rp.nodes[0])
      && TabPlan(Selection(rp, rp, true)) == Throws(EmptyText)
      && TabPlanGuarded(Selection(rp, rp, true)) == ReplaceRange(1, 6, IndentedItem(ParaOf(""), rp.nodes[1], ItemOf("b")))
  {
    EndOfSecondItemResolved("", "b");
  }

  /** Tab in a top-level paragraph reads a grandparent that does not exist and throws; the guarded Tab does nothing. */
  lemma TabThrowsAtTopLevel()
    ensures var para := ParaOf("a");
      var doc := Create(Doc, [para]);
      var rp: ResolvedPos := ResolvedPosRecord(2, 1, [doc, para], [0], [0]);
      && ResolvedIn(rp, doc) && Conforms(doc)
      && TabPlan(Selection(rp, rp, true)) == Throws(UndefinedAncestor)
      && TabPlanGuarded(Selection(rp, rp, true)) == NoOp
  {
    var para := ParaOf("a");
    var doc := Create(Doc, [para]);
    assert doc.children[..0] == [];
  }

  /**
    Indenting the second of two items: the range from the list's content start
    to just before the second item's paragraph is replaced by one item whose
    nested container holds the first item's text and the second item in a list
    of the same kind.
  */
  lemma TabIndentsSecondItem()
    ensures var rp := EndOfSecondItem("a", "b");
      && ResolvedIn(rp, rp.nodes[0]) && Conforms(rp.nodes[0])
      && TabPlan(Selection(rp, rp, true)) ==
           ReplaceRange(1, 7, Create(ListItem, [Create(NestedList, [ParaOf("a"), Create(UnorderedList, [ItemOf("b")])])]))
  {
    EndOfSecondItemResolved("a", "b");
  }

  /** The position at the end of the middle item's text, in a document holding one unordered list of three items. */
  function EndOfMiddleItem(a: string, b: string, c: string): (rp: ResolvedPos)
  {
    var list := Create(UnorderedList, [ItemOf(a), ItemOf(b), ItemOf(c)]);
    ResolvedPosRecord(|a| + |b| + 7, 3, [Create(Doc, [list]), list, ItemOf(b), ParaOf(b)], [0, 1, 0], [0, |a| + 5, |a| + 6])
  }

  lemma EndOfMiddleItemResolved(a: string, b: string, c: string)
    ensures var rp := EndOfMiddleItem(a, b, c);
      ResolvedIn(rp, rp.nodes[0]) && Conforms(rp.nodes[0])
  {
    var rp := EndOfMiddleItem(a, b, c);
    var list := rp.nodes[1];
    assert rp.nodes[0].children[..0] == [] && list.children[..1] == [ItemOf(a)] && ItemOf(b).children[..0] == [];
    SingletonContent(ItemOf(a));
    assert StepValid(rp, 0);
    assert StepValid(rp, 1);
    assert StepValid(rp, 2);
    assert Conforms(list);
  }

  /**
    Tab copies the grandparent's last-but-one child, not the item before the
    cursor: in the middle of three items it copies the middle item's own text.
  */
  lemma TabCopiesLastButOne()
    ensures var rp := EndOfMiddleItem("a", "b", "c");
      && ResolvedIn(rp, rp.nodes[0]) && Conforms(rp.nodes[0])
      && TabPlan(Selection(rp, rp, true)).ReplaceRange?
      && TabPlan(Selection(rp, rp, true)).node.children[0].children[0] == ParaOf("b")
  {
    EndOfMiddleItemResolved("a", "b", "c");
    var rp := EndOfMiddleItem("a", "b", "c");
    assert rp.nodes[1].children[1] == ItemOf("b");
  }

  /** The position at the end of the last item's text, in a document holding one unordered list of three items. */
  function EndOfLastItem(a: string, b: string, c: string): (rp: ResolvedPos)
  {
    var list := Create(UnorderedList, [ItemOf(a), ItemOf(b), ItemOf(c)]);
    ResolvedPosRecord(|a| + |b| + |c| + 11, 3, [Create(Doc, [list]), list, ItemOf(c), ParaOf(c)], [0, 2, 0], [0, |a| + |b| + 9, |a| + |b| + 10])
  }

  lemma EndOfLastItemResolved(a: string, b: string, c: string)
    ensures var rp := EndOfLastItem(a, b, c);
      ResolvedIn(rp, rp.nodes[0]) && Conforms(rp.nodes[0])
  {
    var rp := EndOfLastItem(a, b, c);
    var list := rp.nodes[1];
    assert rp.nodes[0].children[..0] == [] && ItemOf(c).children[..0] == [];
    assert list.children[..2] == [ItemOf(a), ItemOf(b)] && [ItemOf(a), ItemOf(b)][..1] == [ItemOf(a)];
    SingletonContent(ItemOf(a));
    assert ContentSize(list.children[..2]) == |a| + |b| + 8;
    assert StepValid(rp, 0);
    assert StepValid(rp, 1);
    assert StepValid(rp, 2);
    assert Conforms(list);
  }

  /**
    Tab on the last of three items replaces from the list's content start, so
    the first item (offsets 1 to 6) falls inside the range and its text is in
    none of the new node; nesting under the previous item replaces only the
    second and third items (offsets 6 to 16) and keeps the text.
  */
  lemma TabDropsEarlierItems()
    ensures var rp := EndOfLastItem("a", "b", "c");
      var item := IndentedItem(ParaOf("b"), rp.nodes[1], ItemOf("c"));
      && ResolvedIn(rp, rp.nodes[0]) && Conforms(rp.nodes[0])
      && TabPlan(Selection(rp, rp, true)) == ReplaceRange(1, 12, item)
      && NodeSize(ItemOf("a")) == 5 && TextContent(item) == "bc"
      && TabNestUnderPrevious(Selection(rp, rp, true)) == ReplaceRange(6, 16, item)
  {
    EndOfLastItemResolved("a", "b", "c");
    var rp := EndOfLastItem("a", "b", "c");
    assert rp.nodes[1].children[1] == ItemOf("b");
    IndentedItemText("b", rp.nodes[1], ItemOf("c"));
  }

  /** The position at the end of "y" in a list item holding a paragraph "x" and a nested container around a paragraph "y". */
  function EndOfNestedParagraph(): (rp: ResolvedPos)
  {
    var nested := Node(NestedList, [ParaOf("y")], "");
    var item := Node(ListItem, [ParaOf("x"), nested], "");
    var list := Node(UnorderedList, [item], "");
    ResolvedPosRecord(8, 4, [Node(Doc, [list], ""), list, item, nested, ParaOf("y")], [0, 0, 1, 0], [0, 1, 5, 6])
  }

  lemma EndOfNestedParagraphResolved()
    ensures var rp := EndOfNestedParagraph();
      ResolvedIn(rp, rp.nodes[0]) && Conforms(rp.nodes[0])
  {
    var rp := EndOfNestedParagraph();
    var item := rp.nodes[2];
    assert rp.nodes[0].children[..0] == [] && rp.nodes[1].children[..0] == [] && rp.nodes[3].children[..0] == [];
    assert item.children[..1] == [ParaOf("x")];
    SingletonContent(ParaOf("x"));
    assert StepValid(rp, 0);
    assert StepValid(rp, 1);
    assert StepValid(rp, 2);
    assert StepValid(rp, 3);
    assert Conforms(rp.nodes[3]);
    assert Conforms(item);
    assert Conforms(rp.nodes[1]);
  }

  /**
    Tab in a paragraph of a nested container fires through the grandparent
    list item and wraps the nested container in an ordered list, which the
    schema forbids; the nesting Tab does nothing there.
  */
  lemma TabBreaksSchemaInNestedContainer()
    ensures var rp := EndOfNestedParagraph();
      var item := IndentedItem(ParaOf("x"), rp.nodes[2], rp.nodes[3]);
      && ResolvedIn(rp, rp.nodes[0]) && Conforms(rp.nodes[0])
      && TabPlan(Selection(rp, rp, true)) == ReplaceRange(2, 6, item)
      && !Conforms(item)
      && TabNestUnderPrevious(Selection(rp, rp, true)) == NoOp
  {
    EndOfNestedParagraphResolved();
    var rp := EndOfNestedParagraph();
    assert TabFires(rp) && CopiedText(rp) == "x";
    assert Start(rp, 2) == 2 && Before(rp, 4) == 6;
    IndentedItemConformsIff(ParaOf("x"), rp.nodes[2], rp.nodes[3]);
  }

  // ---------------------------------------------------------------- Convert

  /** The list the conversion builds: unordered for "unordered_list", ordered for any other name. */
  function ListNamed(listType: string, item: Node): (r: Node)
    ensures r.kind == UnorderedList <==> listType == "unordered_list"
    ensures r.kind == UnorderedList || r.kind == OrderedList
    ensures r.children == [item]
  {
    if listType == "unordered_list" then Create(UnorderedList, [item]) else Create(OrderedList, [item])
  }

  /** The list the wrap branch builds: one item holding one paragraph with `text`. */
  function Wrapped(listType: string, text: string): (r: Node)
    ensures r == ListNamed(listType, ItemOf(text))
    ensures Conforms(r) && TextContent(r) == text && r.kind != Paragraph
  {
    var item := ItemOf(text);
    SingletonContent(item);
    ListNamed(listType, item)
  }

  /** The position's parent is a list item. */
  predicate InItem(rp: ResolvedPos)
  {
    rp.depth >= 1 && rp.nodes[rp.depth - 1].kind == ListItem
  }

  /** Toggle off: the parent is a list item and the grandparent (depth counted as the source does) is a list named `listType`. */
  predicate TogglesOff(listType: string, rp: ResolvedPos)
  {
    InItem(rp) && HasTypeName(NodeAt(rp, rp.depth - 2), listType)
  }

  /**
    Convert the block around the selection to a list of `listType`, or back to
    a bare paragraph when it already sits in such a list. The replaced range
    always ends at the cursor; its start is computed from the cursor and the
    block's size.
  */
  function ConvertToList(listType: string, sel: Selection): (r: Plan)
    ensures !sel.hasRange ==> r == NoOp
    ensures sel.hasRange && sel.from.depth == 0 ==> r == Throws(UndefinedAncestor)
    ensures sel.hasRange && sel.from.depth >= 1 ==> r.Replace? && r.to == sel.from.pos
    ensures r.Replace? ==>
      var block := sel.from.nodes[sel.from.depth];
      && Conforms(r.node)
      && TextContent(r.node) == TextContent(block)
      && r.from == sel.from.pos - NodeSize(block) + (if InItem(sel.from) then -1 else 1)
      && (r.node.kind == Paragraph <==> TogglesOff(listType, sel.from))
      && (TogglesOff(listType, sel.from) ==> r.node == ParaOf(TextContent(block)))
      && (!TogglesOff(listType, sel.from) ==> r.node == Wrapped(listType, TextContent(block)))
  {
    if !sel.hasRange then NoOp
    else
      var rp := sel.from;
      match NodeAt(rp, rp.depth - 1)
      case None => Throws(UndefinedAncestor)
      case Some(parent) =>
        var block := rp.nodes[rp.depth];
        var text := TextContent(block);
        var wrapped := Wrapped(listType, text);
        if Name(parent.kind) == "list_item" then
          match NodeAt(rp, rp.depth - 2)
          case None => Throws(UndefinedAncestor)  // unreachable: at depth 1 or more, depth - 2 resolves to a depth of at least 0
          case Some(grand) =>
            if Name(grand.kind) == listType then Replace(rp.pos - NodeSize(block) - 1, rp.pos, ParaOf(text))
            else Replace(rp.pos - NodeSize(block) - 1, rp.pos, wrapped)
        else Replace(rp.pos - NodeSize(block) + 1, rp.pos, wrapped)
  }

  /**
    Where the conversion's range starts, relative to the block: at the block's
    own boundary minus however far the cursor is from the block's end, and two
    further back when the block is in a list item. So the range starts at the
    block boundary exactly when the cursor is at the end of a block outside any
    list item, and otherwise earlier, inside what precedes the block.
  */
  lemma ConvertAnchor(listType: string, sel: Selection, doc: Node)
    requires ResolvedIn(sel.from, doc)
    requires ConvertToList(listType, sel).Replace?
    ensures var rp := sel.from; var r := ConvertToList(listType, sel);
      && r.from == Before(rp, rp.depth) - (End(rp, rp.depth) - rp.pos) - (if InItem(rp) then 2 else 0)
      && r.from <= Before(rp, rp.depth)
      && (r.from == Before(rp, rp.depth) <==> !InItem(rp) && rp.pos == End(rp, rp.depth))
  {
    var rp := sel.from;
    if rp.depth >= 1 {
      AncestorNests(rp, doc, rp.depth);
    }
  }

  /**
    In the document's first top-level block, the conversion's range starts
    before offset 0, outside the document, at every cursor position except the
    block's end.
  */
  lemma FirstBlockAnchorNegative(listType: string, sel: Selection, doc: Node)
    requires ResolvedIn(sel.from, doc) && doc.kind == Doc && sel.hasRange
    requires sel.from.depth == 1 && sel.from.indices[0] == 0
    ensures ConvertToList(listType, sel).Replace?
    ensures ConvertToList(listType, sel).from < 0 <==> sel.from.pos < End(sel.from, 1)
  {
    ConvertAnchor(listType, sel, doc);
    assert StepValid(sel.from, 0);
    assert doc.children[..0] == [];
  }

  /** With the cursor at the start of a lone paragraph `ab`, the conversion's range starts at -2, outside the document. */
  lemma ConvertAnchorBeforeDocument()
    ensures var para := ParaOf("ab");
      var doc := Create(Doc, [para]);
      var rp: ResolvedPos := ResolvedPosRecord(1, 1, [doc, para], [0], [0]);
      && ResolvedIn(rp, doc)
      && ConvertToList("unordered_list", Selection(rp, rp, true)) == Replace(-2, 1, ListNamed("unordered_list", Create(ListItem, [para])))
  {
    var para := ParaOf("ab");
    var doc := Create(Doc, [para]);
    assert doc.children[..0] == [];
    assert ContentSize(doc.children[..0]) == 0;
  }

  /**
    Converting back: with the cursor in the paragraph of a list that the wrap
    branch built from `text`, converting with the same list type takes the
    toggle-off branch and gives a bare paragraph carrying `text` again.
  */
  lemma ToggleRoundTrip(listType: string, text: string, back: Selection)
    requires listType == "unordered_list" || listType == "ordered_list"
    requires back.hasRange && back.from.depth >= 2
    requires var list := Wrapped(listType, text);
      && back.from.nodes[back.from.depth - 2] == list
      && back.from.nodes[back.from.depth - 1] == list.children[0]
      && back.from.nodes[back.from.depth] == list.children[0].children[0]
    ensures var r := ConvertToList(listType, back);
      && r.Replace? && r.node.kind == Paragraph
      && r.node == ParaOf(text) && TextContent(r.node) == text
  {
    var list := Wrapped(listType, text);
    assert Name(list.kind) == listType;
    assert back.from.nodes[back.from.depth] == ParaOf(text);
    assert TogglesOff(listType, back.from);
  }

  /**
    Converting the second of two paragraphs with the cursor at its end replaces
    from that paragraph's boundary to the cursor, so the first paragraph lies
    wholly before the range.
  */
  lemma ConvertSecondParagraph()
    ensures var first := ParaOf("a");
      var second := ParaOf("b");
      var doc := Create(Doc, [first, second]);
      var rp: ResolvedPos := ResolvedPosRecord(5, 1, [doc, second], [1], [3]);
      && ResolvedIn(rp, doc)
      && ConvertToList("ordered_list", Selection(rp, rp, true)) == Replace(3, 5, Create(OrderedList, [Create(ListItem, [second])]))
      && NodeSize(first) == 3
  {
    var first := ParaOf("a");
    var second := ParaOf("b");
    var doc := Create(Doc, [first, second]);
    assert doc.children[..1] == [first];
    SingletonContent(first);
  }

  /**
    With the cursor inside the second paragraph rather than at its end, the
    conversion's range starts at offset 1, inside the first paragraph (offsets
    0 to 3).
  */
  lemma ConvertMidBlockReachesPrevious()
    ensures var first := ParaOf("a");
      var second := ParaOf("bc");
      var doc := Create(Doc, [first, second]);
      var rp: ResolvedPos := ResolvedPosRecord(4, 1, [doc, second], [1], [3]);
      && ResolvedIn(rp, doc)
      && ConvertToList("ordered_list", Selection(rp, rp, true)) == Replace(1, 4, Create(OrderedList, [Create(ListItem, [second])]))
      && NodeSize(first) == 3
  {
    var first := ParaOf("a");
    var second := ParaOf("bc");
    var doc := Create(Doc, [first, second]);
    assert doc.children[..1] == [first];
    SingletonContent(first);
  }

  // ---------------------------------------------------------------- Insert

  /** Insert a list of one item holding one empty paragraph over the selection: unordered for "unordered", ordered otherwise. */
  function InsertList(listType: string, sel: Selection): (r: Plan)
    ensures r.Replace? && r.from == sel.from.pos && r.to == sel.to.pos
    ensures r.node.kind == UnorderedList <==> listType == "unordered"
    ensures r.node.kind == UnorderedList || r.node.kind == OrderedList
    ensures r.node.children == [EmptyItem()]
    ensures Conforms(r.node) && TextContent(r.node) == "" && NodeSize(r.node) == 6
  {
    var item := Create(ListItem, [Create(Paragraph, [])]);
    var list := if listType == "unordered" then Create(UnorderedList, [item]) else Create(OrderedList, [item]);
    Replace(sel.from.pos, sel.to.pos, list)
  }

  // ---------------------------------------------------------------- Buttons

  datatype ListButton = UnorderedButton | OrderedButton

  /** The argument each button passes to `insertList`. */
  function InsertName(b: ListButton): string
  {
    if b == UnorderedButton then "unordered" else "ordered"
  }

  /** The argument each button passes to `converToList`. */
  function ConvertName(b: ListButton): string
  {
    if b == UnorderedButton then "unordered_list" else "ordered_list"
  }

  /**
    The button's reading of the selection: the grandparent's type name when the
    parent is a list item, otherwise the selected-type name of the innermost
    node; absent (a TypeError) when the position has no parent.
  */
  function CurrentNodeType(rp: ResolvedPos): (r: Option<string>)
    ensures r.None? <==> rp.depth == 0
    ensures InItem(rp) && rp.depth >= 2 ==> r == Some(Name(rp.nodes[rp.depth - 2].kind))
    ensures rp.depth >= 1 && !InItem(rp) ==> r == Some(SelectedNodeType(rp.nodes[rp.depth].kind))
  {
    match NodeAt(rp, rp.depth - 1)
    case None => None
    case Some(parent) =>
      if Name(parent.kind) == "list_item" then
        match NodeAt(rp, rp.depth - 2)
        case None => None  // unreachable: at depth 1 or more, depth - 2 resolves to a depth of at least 0
        case Some(grand) => Some(Name(grand.kind))
      else Some(SelectedNodeType(NodeAt(rp, rp.depth).value.kind))
  }

  /** The types the buttons convert. */
  predicate Convertible(t: string)
  {
    t == "paragraph" || t == "unordered_list" || t == "ordered_list"
  }

  /**
    A list button: with no block range, insert a new list; otherwise convert
    when the classified type is a paragraph or a list, and do nothing for any
    other type.
  */
  function ButtonPlan(b: ListButton, sel: Selection): (r: Plan)
    ensures !sel.hasRange ==>
      && r.Replace? && r.from == sel.from.pos && r.to == sel.to.pos && r.node.children == [EmptyItem()]
      && (r.node.kind == UnorderedList <==> b == UnorderedButton)
      && (r.node.kind == OrderedList <==> b == OrderedButton)
    ensures sel.hasRange && sel.from.depth == 0 ==> r == Throws(UndefinedAncestor)
    ensures sel.hasRange && sel.from.depth >= 1 && !Convertible(CurrentNodeType(sel.from).value) ==> r == NoOp
    ensures sel.hasRange && sel.from.depth >= 1 && Convertible(CurrentNodeType(sel.from).value) ==>
              r == ConvertToList(ConvertName(b), sel)
  {
    if !sel.hasRange then InsertList(InsertName(b), sel)
    else
      match CurrentNodeType(sel.from)
      case None => Throws(UndefinedAncestor)
      case Some(t) => if Convertible(t) then ConvertToList(ConvertName(b), sel) else NoOp
  }

  /** Both paths of a button build the same kind of list: the "unordered"/"unordered_list" naming split is consistent. */
  lemma ButtonListKindConsistent(b: ListButton, empty: Selection, sel: Selection)
    requires !empty.hasRange
    requires ButtonPlan(b, sel).Replace? && ButtonPlan(b, sel).node.kind != Paragraph
    ensures ButtonPlan(b, empty).node.kind == ButtonPlan(b, sel).node.kind
  {
  }

  /**
    In a document that satisfies the schema, with the cursor in a paragraph,
    the buttons convert unless the paragraph's item sits directly in a nested
    container rather than in a list; then they do nothing.
  */
  lemma ButtonConvertsUnlessNestedContainer(rp: ResolvedPos, doc: Node)
    requires ResolvedIn(rp, doc) && Conforms(doc) && doc.kind == Doc
    requires rp.depth >= 1 && rp.nodes[rp.depth].kind == Paragraph
    ensures CurrentNodeType(rp).Some?
    ensures !Convertible(CurrentNodeType(rp).value) <==> InItem(rp) && rp.nodes[rp.depth - 2].kind == NestedList
  {
    if InItem(rp) {
      AncestorConforms(rp, doc, rp.depth - 1);
    }
  }
}

=== FILE: position.dfy ===
/**
  Resolved positions, as the list commands read them: a flat offset together
  with the chain of ancestors from the document root down to the node whose
  content holds the offset, and the offset at which each ancestor starts.
  ProseMirror builds these; here they are inputs, and `ResolvedIn` states the
  consistency that resolution guarantees.
*/
module Position {
  import opened Schema

  /**
    `nodes[d]` is the ancestor at depth `d` (`nodes[0]` the root);
    `indices[d]` is the index of `nodes[d + 1]` among the children of
    `nodes[d]`, and `offsets[d]` the absolute offset at which it starts.
  */
  datatype ResolvedPosRecord = ResolvedPosRecord(pos: int, depth: nat, nodes: seq<Node>, indices: seq<nat>, offsets: seq<int>)

  type ResolvedPos = rp: ResolvedPosRecord
    | |rp.nodes| == rp.depth + 1 && |rp.indices| == rp.depth && |rp.offsets| == rp.depth
    witness ResolvedPosRecord(0, 0, [Node(Doc, [], "")], [], [])

  /** A negative depth argument counts back from the position's own depth. */
  function ResolveDepth(rp: ResolvedPos, d: int): int
  {
    if d < 0 then rp.depth + d else d
  }

  /** `$pos.node(d)`: the ancestor at depth `d`, or undefined when there is none. */
  function NodeAt(rp: ResolvedPos, d: int): (r: Option<Node>)
    ensures r.Some? <==> 0 <= ResolveDepth(rp, d) <= rp.depth
    ensures r.Some? ==> r.value == rp.nodes[ResolveDepth(rp, d)]
  {
    var e := ResolveDepth(rp, d);
    if 0 <= e <= rp.depth then Some(rp.nodes[e]) else None
  }

  /**
    The two spellings the handlers use for an ancestor, `node(-k)` and
    `node(depth - k)`, read the same node whenever `0 < k <= depth`. At depth
    one, `node(depth - 2)` is `node(-1)`, the root, while `node(-2)` is
    undefined.
  */
  lemma NodeAtCountsBack(rp: ResolvedPos, k: int)
    ensures 0 < k <= rp.depth ==> NodeAt(rp, -k) == NodeAt(rp, rp.depth - k) == Some(rp.nodes[rp.depth - k])
    ensures rp.depth == 1 ==> NodeAt(rp, rp.depth - 2) == Some(rp.nodes[0]) && NodeAt(rp, -2).None?
  {
  }

  /** `$pos.start(d)`: the offset where the content of the ancestor at depth `d` begins. */
  function Start(rp: ResolvedPos, d: nat): int
    requires d <= rp.depth
  {
    if d == 0 then 0 else rp.offsets[d - 1] + 1
  }

  /** `$pos.end(d)`: the offset where the content of the ancestor at depth `d` ends. */
  function End(rp: ResolvedPos, d: nat): int
    requires d <= rp.depth
  {
    Start(rp, d) + ContentSize(rp.nodes[d].children)
  }

  /** `$pos.before(d)`: the offset just before the ancestor at depth `d` (the root has none). */
  function Before(rp: ResolvedPos, d: nat): int
    requires 1 <= d <= rp.depth
  {
    rp.offsets[d - 1]
  }

  /** `$pos.after(d)`: the offset just after the ancestor at depth `d`. */
  function After(rp: ResolvedPos, d: nat): int
    requires 1 <= d <= rp.depth
  {
    Before(rp, d) + NodeSize(rp.nodes[d])
  }

  /** One step of the ancestor chain: `nodes[d + 1]` is the child of `nodes[d]` it claims to be, at the offset it claims. */
  predicate StepValid(rp: ResolvedPos, d: nat)
    requires d < rp.depth
  {
    && rp.indices[d] < |rp.nodes[d].children|
    && rp.nodes[d + 1] == rp.nodes[d].children[rp.indices[d]]
    && rp.nodes[d + 1].kind != Text
    && rp.offsets[d] == Start(rp, d) + ContentSize(rp.nodes[d].children[..rp.indices[d]])
  }

  /**
    `rp` is a resolution of an offset in `doc`: the chain starts at the root,
    each step follows a child at its true offset, no ancestor is a text node,
    and the offset lies within the content of the innermost ancestor.
  */
  predicate ResolvedIn(rp: ResolvedPos, doc: Node)
  {
    && rp.nodes[0] == doc
    && doc.kind != Text
    && (forall d :: 0 <= d < rp.depth ==> StepValid(rp, d))
    && Start(rp, rp.depth) <= rp.pos <= End(rp, rp.depth)
  }

  /** Prefixes of a child sequence never outweigh the whole sequence. */
  lemma {:induction false} PrefixSizeMonotone(cs: seq<Node>, j: nat)
    requires j <= |cs|
    ensures ContentSize(cs[..j]) <= ContentSize(cs)
    decreases |cs| - j
  {
    if j < |cs| {
      PrefixSizeMonotone(cs, j + 1);
      assert cs[..j + 1][..j] == cs[..j];
    } else {
      assert cs[..j] == cs;
    }
  }

  /** A child's span, counted from its parent's content start, ends within that content. */
  lemma ChildSpanWithin(cs: seq<Node>, i: nat)
    requires i < |cs|
    ensures ContentSize(cs[..i]) + NodeSize(cs[i]) <= ContentSize(cs)
  {
    assert cs[..i + 1][..i] == cs[..i];
    PrefixSizeMonotone(cs, i + 1);
  }

  /**
    Ancestor spans nest: the ancestor at depth `d` opens one position before its
    content, closes one after it, and lies within the content of its parent.
  */
  lemma AncestorNests(rp: ResolvedPos, doc: Node, d: nat)
    requires ResolvedIn(rp, doc)
    requires 1 <= d <= rp.depth
    ensures Start(rp, d) == Before(rp, d) + 1 && After(rp, d) == End(rp, d) + 1
    ensures Start(rp, d - 1) <= Before(rp, d) && After(rp, d) <= End(rp, d - 1)
  {
    assert StepValid(rp, d - 1);
    ChildSpanWithin(rp.nodes[d - 1].children, rp.indices[d - 1]);
  }

  /** The resolved offset lies within the content of every ancestor, not only the innermost. */
  lemma {:induction false} PosInsideAncestor(rp: ResolvedPos, doc: Node, d: nat)
    requires ResolvedIn(rp, doc)
    requires d <= rp.depth
    ensures Start(rp, d) <= rp.pos <= End(rp, d)
    decreases rp.depth - d
  {
    if d < rp.depth {
      PosInsideAncestor(rp, doc, d + 1);
      AncestorNests(rp, doc, d + 1);
    }
  }

  /** A resolved offset never lies outside the document: 0 <= pos <= the root's content size. */
  lemma PositionInDocument(rp: ResolvedPos, doc: Node)
    requires ResolvedIn(rp, doc)
    ensures 0 <= rp.pos <= ContentSize(doc.children)
  {
    PosInsideAncestor(rp, doc, 0);
  }

  /** In a document that satisfies the schema, every ancestor satisfies it and sits where its parent's rule allows. */
  lemma {:induction false} AncestorConforms(rp: ResolvedPos, doc: Node, d: nat)
    requires ResolvedIn(rp, doc) && Conforms(doc)
    requires d <= rp.depth
    ensures Conforms(rp.nodes[d])
    ensures 1 <= d ==> Allowed(rp.nodes[d - 1].kind, rp.nodes[d].kind)
  {
    if d > 0 {
      AncestorConforms(rp, doc, d - 1);
      assert StepValid(rp, d - 1);
    }
  }
}

=== FILE: schema.dfy ===
/**
  The list editor's closed schema: the node kinds, their content rules, and
  the derived measures (size in the linear addressing space, text content)
  that the list commands compute offsets and replacements from.
*/
module Schema {

  /** A value that may be absent (`undefined` in the source). */
  datatype Option<T> = None | Some(value: T)

  /** The node types the editor declares; `Text` is the inline leaf type. */
  datatype Kind = Doc | Paragraph | NestedList | ListItem | UnorderedList | OrderedList | Text

  /** The type name the source compares against (`node.type.name`). */
  function Name(k: Kind): string
  {
    match k
    case Doc => "doc"
    case Paragraph => "paragraph"
    case NestedList => "nested_list"
    case ListItem => "list_item"
    case UnorderedList => "unordered_list"
    case OrderedList => "ordered_list"
    case Text => "text"
  }

  /** Type names identify kinds: comparing names is comparing kinds. */
  lemma NameInjective(a: Kind, b: Kind)
    ensures Name(a) == Name(b) <==> a == b
  {
  }

  /**
    The content rules. Every rule of the schema is a starred alternation, so a
    child sequence matches exactly when each child's kind is one of the
    alternatives.
  */
  predicate Allowed(parent: Kind, child: Kind)
  {
    match parent
    case Doc => child == Paragraph || child == UnorderedList || child == OrderedList
    case Paragraph => child == Text
    case NestedList => child == Paragraph || child == UnorderedList || child == OrderedList || child == ListItem
    case ListItem => child == Paragraph || child == NestedList
    case UnorderedList => child == ListItem
    case OrderedList => child == ListItem
    case Text => false
  }

  /** A node: its type, its children in order and, for a text node, its characters. */
  datatype Node = Node(kind: Kind, children: seq<Node>, text: string)

  /**
    A tree satisfies the schema: every child is allowed by its parent's rule,
    and a text node is a non-empty leaf (text nodes cannot be empty).
  */
  predicate Conforms(n: Node)
    decreases n
  {
    if n.kind == Text then
      n.children == [] && n.text != ""
    else
      n.text == "" &&
      forall i :: 0 <= i < |n.children| ==> Allowed(n.kind, n.children[i].kind) && Conforms(n.children[i])
  }

  /** The content rule of a node checked one level deep (its children may be anything). */
  predicate ContentMatches(kind: Kind, children: seq<Node>)
  {
    forall i :: 0 <= i < |children| ==> Allowed(kind, children[i].kind)
  }

  /** Size in the linear addressing space: text counts its characters, other nodes their two boundaries plus their content. */
  function NodeSize(n: Node): nat
    decreases n, 1
  {
    if n.kind == Text then |n.text| else 2 + ContentSize(n.children)
  }

  /** The summed size of a child sequence. */
  function ContentSize(cs: seq<Node>): nat
    decreases cs, 0
  {
    if cs == [] then 0 else ContentSize(cs[..|cs| - 1]) + NodeSize(cs[|cs| - 1])
  }

  /** Concatenated descendant text. */
  function TextContent(n: Node): string
    decreases n, 1
  {
    if n.kind == Text then n.text else ContentText(n.children)
  }

  function ContentText(cs: seq<Node>): string
    decreases cs, 0
  {
    if cs == [] then "" else ContentText(cs[..|cs| - 1]) + TextContent(cs[|cs| - 1])
  }

  /** A one-child sequence weighs and reads exactly as its child. */
  lemma SingletonContent(n: Node)
    ensures ContentSize([n]) == NodeSize(n) && ContentText([n]) == TextContent(n)
  {
    assert [n][..0] == [];
  }

  /** `NodeType.create(attrs, content)`: builds the node without checking its content rule. */
  function Create(kind: Kind, content: seq<Node>): (r: Node)
    requires kind != Text
    ensures r.kind == kind && r.children == content
    ensures Conforms(r) <==> ContentMatches(kind, content) && forall i :: 0 <= i < |content| ==> Conforms(content[i])
    ensures NodeSize(r) == ContentSize(content) + 2
    ensures TextContent(r) == ContentText(content)
  {
    Node(kind, content, "")
  }

  /** `schema.text(s)`: a text node, refused (RangeError) when `s` is empty. */
  function TextOf(s: string): (r: Option<Node>)
    ensures r.Some? <==> s != ""
    ensures r.Some? ==> Conforms(r.value) && r.value.kind == Text && TextContent(r.value) == s && NodeSize(r.value) == |s|
  {
    if s == "" then None else Some(Node(Text, [], s))
  }
}
